=== FILE: README.md ===
# A verified model of the p2p_fs directory: node table, command router, and cross-node transfer

`p2p_fs.py` lets machines share their file systems through one directory process (`P2PFileSystem`).
The directory keeps a table of registered nodes, keyed by `"ip:port"`. It hands out the smallest free positive identity and evicts silent nodes.
It routes each file command either to its own file backend or, over XML-RPC, to the node that holds the identity.
The client (`P2PClient`) accepts `idN:path` or `hostname:path` references. For `cp` between two nodes it issues `binary_read` then `binary_write`. For `mv` it then also removes the source with `rm`, and if that removal fails it removes the destination to compensate.

This project models that core in Dafny:

- `wrappers.dfy` (`Wrappers`): `Option`.
- `text.dfy` (`Text`): `startswith`, the case-insensitive `"id"` prefix test, and `split(':', 1)`.
- `decimal.dfy` (`Decimal`): `str(int)` and `int(digits)`.
- `node_table.dfy` (`NodeTable`): the node table as a value (`Table`), its invariant, and the step functions of `register_node`, `heartbeat`, `unregister_node` and `cleanup_inactive_nodes`, with the lemmas about them.
- `registry.dfy` (`Registry`): the class `P2PFileSystem`. Its fields are the dictionary (a `map`), the `used_ids` set, `node_counter` and `local_node_key`. Its methods update them in place, with loops where the source loops, and are proved to perform exactly the step functions. `route_command` is here too.
- `rpc.dfy` (`Rpc`): the closed set of file commands and the values carried by the transport.
- `path_ref.dfy` (`PathRef`): `parse_path`.
- `transfer.dfy` (`Transfer`): the `cp`/`mv` branch of `P2PClient.run`, as a method that records the route calls it issues.
- `echo_scan.dfy` (`EchoScan`): the single-line escape/backtick scanner of `echo`.

Conventions:

- Time is an integer `now` (whole seconds) passed in by the caller.
- The dictionary key `f"{ip}:{port}"` is the pair `Endpoint(ip, port)`. `NodeTable.KeyStringInjective` proves the two keyings agree: `str(port)` contains no `:`, so distinct pairs give distinct strings.
- The local file backend and the XML-RPC proxy are function parameters. The local backend returns a value. The remote call returns a value or the message of the exception it raised.
- Calls the client makes to the directory (`route_command`, `get_node_by_hostname`) are also function parameters.

## Model

| member | source | states |
|---|---|---|
| `Text.SplitAtFirst` | p2p_fs.py:490-494 | There is no split exactly when the string has no `:`; otherwise the prefix holds no `:` and prefix + `:` + rest is the input. |
| `Text.SplitAtFirstOfJoin` | p2p_fs.py:494 | Splitting `prefix + ":" + path` at the first `:` gives back `prefix` and `path` whenever `prefix` has no `:`. |
| `Text.Lower` | p2p_fs.py:56 | ASCII lowering: keeps the length and lowers A–Z, which agrees with `s.lower()` wherever `startswith('id')` can hold. |
| `Text.StartsWithIdIgnoringCase` | p2p_fs.py:56 | The two-character test is exactly `s.lower().startswith('id')`: the lowered string begins with `id`. |
| `Decimal.NatToString` | p2p_fs.py:42 | `str(n)` is a non-empty string of ASCII digits with no `:` and no `-`. |
| `Decimal.DigitsValue` | p2p_fs.py:498 | `int(digits)` is 0 exactly when every digit is `0`. |
| `Decimal.LeadingZero` | p2p_fs.py:497-498 | A leading `0` does not change the value, so `id007` and `id7` name the same identity. |
| `Decimal.DigitsRoundTrip` | p2p_fs.py:497-498 | `int(str(n)) == n` for every non-negative n. |
| `Decimal.IntToString` | p2p_fs.py:42 | `str(n)` is non-empty, has no `:`, starts with `-` exactly for a negative n, and is a digit string otherwise. |
| `Decimal.IntToStringInjective` | p2p_fs.py:42 | Different integers print differently. |
| `NodeTable.KeyStringSplitsAtLastColon` | p2p_fs.py:42 | The key `f"{ip}:{port}"` starts with the ip, followed by `:`, and no `:` comes after that one, so the key splits back at its last `:`. |
| `NodeTable.ErrorMessageInjective` | p2p_fs.py:33-34 | The three registration errors (lines 34, 53, 57) have distinct messages, and the in-use message names the hostname, so the message identifies the rejection. |
| `NodeTable.KeyStringInjective` | p2p_fs.py:42 | Two endpoints with the same `"ip:port"` key string are the same endpoint, so keying by the pair is faithful. |
| `NodeTable.SmallestFreeFrom` | p2p_fs.py:26-28 | Counting up from n, past identities that are all in use, stops at the first identity ≥ n not in use. Every positive identity below it is in use. |
| `NodeTable.SmallestFree` | p2p_fs.py:23-29 | The result is positive and not in use, and every positive identity below it is in use. |
| `NodeTable.SmallestFreeUnique` | p2p_fs.py:23-29 | Any positive, unused identity above only used ones is the smallest free identity. |
| `NodeTable.RemoveFreesId` | p2p_fs.py:91-93 | Deleting one entry from a table with distinct identities frees exactly that entry's identity, and the identities stay distinct. |
| `NodeTable.Stale` | p2p_fs.py:102-107 | An entry is stale when it is not the local node and `now - last_active > timeout`; the local node is never stale. |
| `NodeTable.StaleKeys` | p2p_fs.py:102-108 | The endpoints the sweep evicts are entries of the table, and never the local node's key. |
| `NodeTable.SweepStep` | p2p_fs.py:97-112 | The sweep only removes: the surviving entries are a subset, unchanged, the used identities shrink, and the counter and local key stay as they were. `NodeTable.SweepKeepsInv` states exactly which entries go. |
| `NodeTable.SweepKeepsInv` | p2p_fs.py:97-112 | The sweep keeps the invariant. It keeps exactly the entries that are local or active within the timeout (eviction needs `now - last_active > timeout`, strictly). Kept entries are unchanged and the local node is never evicted. Every evicted identity is freed, and no other identity is. |
| `NodeTable.HeartbeatStep` | p2p_fs.py:78-85 | A heartbeat succeeds exactly for a registered endpoint, and never adds or removes an entry or an identity. |
| `NodeTable.HeartbeatTouchesOnlyLastActive` | p2p_fs.py:78-85 | A heartbeat for a known endpoint changes only that entry's `last_active` and reports success. For an unknown endpoint it reports an error and changes nothing. The invariant is kept. |
| `NodeTable.UnregisterStep` | p2p_fs.py:87-95 | Unregistering succeeds exactly for a registered endpoint. It removes that endpoint and only it, and leaves the other entries as they were. |
| `NodeTable.UnregisterFreesId` | p2p_fs.py:87-95 | Unregistering a known endpoint removes its entry and frees its identity. The next allocation then returns that identity or a smaller one. An unknown endpoint gives an error and leaves the table unchanged. The invariant is kept. |
| `NodeTable.KeyRejected` | p2p_fs.py:33 | With no shared secret, or an empty one (Python falsy), nothing is rejected. A rejection means the presented key differs from the configured one. |
| `NodeTable.RegisterStep` | p2p_fs.py:31-76 | A key mismatch returns the error with the table untouched. A success leaves the endpoint holding the returned identity. A rejection adds no endpoint. |
| `NodeTable.Admit` | p2p_fs.py:59-76 | A fresh admission adds exactly the one endpoint. It gives that endpoint a positive identity not in use, adds that identity to `used_ids`, and raises the counter to at least it. |
| `NodeTable.AdmitKeepsInv` | p2p_fs.py:59-76 | Admitting an endpoint with no entry, whose hostname no entry holds and which has no `id` prefix, keeps the invariant. |
| `NodeTable.RegisterKeepsInv` | p2p_fs.py:31-76 | Registration keeps the invariant: `used_ids` equals the set of entry identities, and identities and hostnames are unique, positive and not id-prefixed. After success the endpoint holds the returned identity. |
| `NodeTable.RegisterRejectionChangesNothing` | p2p_fs.py:31-57 | A key mismatch is decided before the sweep and leaves the whole table untouched. No rejection adds or changes an entry. |
| `NodeTable.RegisterHostnameChecks` | p2p_fs.py:36-57 | For an endpoint with no entry after the sweep (never registered, or evicted by the sweep as stale), a hostname held by an entry that survives the sweep is refused as in use, even if it also has the reserved prefix: the conflict check comes first. An `id`-prefixed hostname (any case) is always refused, and the prefix error is given only for such hostnames. |
| `NodeTable.ReRegisterRefreshes` | p2p_fs.py:36-48 | Re-registering an endpoint that survives the sweep returns its existing identity. Only its `last_active` changes; the stored hostname is kept even if another is passed. No entry is added, and every other surviving entry is unchanged. |
| `NodeTable.RegisterTwiceSameId` | p2p_fs.py:36-48 | Two registrations from the same endpoint, the second within the timeout, return the same identity. |
| `NodeTable.RegisterAllocatesSmallestFree` | p2p_fs.py:59-76 | A fresh registration that passes every check takes the smallest positive identity that no surviving entry holds. It adds exactly that one entry, and records the local key when the address is 127.0.0.1 on the directory's port. |
| `Registry.P2PFileSystem.constructor` | p2p_fs.py:13-21 | A new directory has an empty table, no identities in use, counter 0 and no local key. |
| `Registry.P2PFileSystem.NextAvailableId` | p2p_fs.py:23-29 | The `while` loop returns a positive identity not in `used_ids`, with every smaller positive identity in use. |
| `Registry.P2PFileSystem.GetNodeByHostname` | p2p_fs.py:184-189 | Returns an entry holding the hostname exactly when one exists, otherwise `None`. The same loop serves the conflict check at lines 51-53. |
| `Registry.P2PFileSystem.GetNodes` | p2p_fs.py:179-182 | The snapshot has one `"ip:port"` string key per entry, mapped to that entry. |
| `Registry.P2PFileSystem.CleanupInactiveNodes` | p2p_fs.py:97-112 | The in-place loop needs no precondition. It leaves the table equal to the sweep of the old table, and keeps the invariant whenever the old table held it. It returns each evicted endpoint exactly once. |
| `Registry.P2PFileSystem.Register` | p2p_fs.py:31-76 | The in-place registration produces exactly the new table and the result given by the registration step, and keeps the invariant. |
| `Registry.P2PFileSystem.Heartbeat` | p2p_fs.py:78-85 | The in-place heartbeat produces exactly the heartbeat step's table and status, and keeps the invariant. |
| `Registry.P2PFileSystem.Unregister` | p2p_fs.py:87-95 | The in-place removal produces exactly the unregister step's table and status, and keeps the invariant. |
| `Registry.P2PFileSystem.RouteCommand` | p2p_fs.py:152-177 | If no entry holds the identity, the result is `"Error: Node N does not exist"` and nothing is dispatched. The command runs on the local backend exactly when the holder is 127.0.0.1 on the directory's port. Otherwise it goes to the holder's endpoint, and a raised exception becomes `"Error: Failed to connect to node N - …"`. |
| `Rpc.WireNameInjective` | p2p_fs.py:152-177 | Every verb the client sends (lines 557, 569, 668, 687, 692, 708) has its own method name. |
| `Rpc.IsErrorReply` | p2p_fs.py:688 | Only a string can signal failure, never binary content, and a failure string is `Error:` followed by the rest. |
| `Rpc.ErrorPrefixIsErrorReply` | p2p_fs.py:697 | Any string that begins with `Error:` is read as a failure. |
| `Registry.RemoteReply` | p2p_fs.py:171-177 | A remote reply is passed through unchanged. A raised exception becomes a string that the client reads as a failure and that ends with the exception's message. |
| `PathRef.ParsePath` | p2p_fs.py:488-510 | A reference without `:` fails with the "must include a node identifier" message. |
| `PathRef.IsIdRef` | p2p_fs.py:497 | A numeric reference has at least one digit after `id` (so bare `id` is a hostname) and never contains `:`. |
| `PathRef.NonIdRefUsesLookup` | p2p_fs.py:500-510 | Any other prefix (such as `id`, `idx` or `ID12a`) is a hostname. The reference resolves to an identity exactly when the directory's lookup returns that identity. A missing hostname gives `Error: Could not find a node with hostname '…'`, and a raised lookup gives `Error: An error occurred while parsing the path - …`. |
| `PathRef.IdRefSkipsLookup` | p2p_fs.py:494-499 | `idN:path`, in any case and with leading zeros allowed, names identity N and the path after the first `:`, whatever the hostname lookup would answer. |
| `PathRef.IdRefRoundTrip` | p2p_fs.py:496-499 | `"id" + str(n) + ":" + path` parses to identity n and that path. |
| `PathRef.RegisteredHostnameResolves` | p2p_fs.py:501-507 | In a table that satisfies the invariant, a registered hostname without `:` is never read as a numeric reference, because registration refuses `id` prefixes. So `hostname:path` resolves through the lookup to that entry's identity. |
| `PathRef.ColonHostnameIsCut` | p2p_fs.py:494 | Registration accepts the hostname `a:b` (it gets identity 1 in an empty directory). But `a:b:path` is cut at the first `:`: the lookup is asked about `a`, and a resolved reference carries the path `b:path`, never `path`. |
| `Transfer.CopyOrMove` | p2p_fs.py:674-718 | An unreadable reference issues no call. The same node gets one `cp`/`mv` call. Across nodes, `binary_read` comes first and a failed read issues no write. In `cp`, a read that raises leaves the exception to the command loop. The write carries exactly the bytes read. `cp` issues at most two calls. In `mv`, a failed write issues no removal. A removal of the source that returns `"Error:"` is followed by removal of the destination and is the error reported. A full success reports `Moved '…' to '…'`. An exception inside `mv` is reported as `Error: Failed to move file - …`. |
| `EchoScan.Backtick` | p2p_fs.py:599-611 | A backtick opens or closes a block exactly when it is the third of a run. It adds at most one character. |
| `EchoScan.ScanWith` | p2p_fs.py:589-619 | Scanning never writes more characters than it reads. |
| `EchoScan.Scan` | p2p_fs.py:589-619 | The scanner as written produces content no longer than the line. |
| `EchoScan.ScanIntended` | p2p_fs.py:589-619 | The scanner with the closing fence stripped produces content no longer than the line. |
| `EchoScan.ScanLine` | p2p_fs.py:589-619 | The character loop produces the content and the multi-line flag given by the scanner's specification `Scan`. |
| `EchoScan.EscapedIsLiteral` | p2p_fs.py:589-619 | In any scanner state, escaped text is appended to the buffer verbatim and the block state is left alone. |
| `EchoScan.EscapeRoundTrip` | p2p_fs.py:589-619 | Scanning an escaped text (each `\` and backtick preceded by `\`) yields the text itself, with no block open. |
| `EchoScan.ClosingFenceKeepsBackticks` | p2p_fs.py:599-611 | As written, a line consisting of a triple-backtick fence, some text and a closing triple-backtick fence yields the text followed by two backticks. |
| `EchoScan.ClosingFenceStripped` | p2p_fs.py:599-611 | With the closing fence treated as the continuation-line path treats it (line 655), such a line yields exactly the text. |

## Left out

- The XML-RPC transport is not modelled: `ServerProxy`, `SimpleXMLRPCServer`, `start_server` (lines 114-138). A remote call is a function parameter that returns a value or an exception message.
- `FileManager` (lines 252-389) and the forwarding methods `mkdir` … `mv` (lines 225-250) are not modelled. They are file-system I/O, represented by the local-backend parameter. An exception the local backend raises (for example, wrong arity through `getattr`) is not modelled, because `route_command` does not catch it.
- The threads and the lock are not modelled: `self_heartbeat` (140-150), `cleanup_thread` (741-751), `heartbeat_loop` (477-486). Each registry method is one atomic step.
- `time.time()` is not modelled; the model uses an integer `now`. Floating-point timestamps are out of scope.
- Client start-up is not modelled: local-IP discovery, the registration retry loop with `sys.exit` and `sleep` (392-455), and `setup_readline` (457-475).
- The interactive loop of `run` (517-731) is not modelled, apart from its `cp`/`mv` branch (668-718) and the `echo` scanner (589-619): `input`, `print`, usage checks on the argument count, Ctrl+C handling (514-515, 733, 735-739), the `echo` continuation lines read with `input()` (622-662), `main`/argparse (753-799) and `get_help` (191-222).
- `Registry.P2PFileSystem.CleanupInactiveNodes`: the evicted endpoints come back in some order. Python returns them in dictionary insertion order, which a `map` does not have.
- `Registry.P2PFileSystem.RouteCommand`: Python takes the first matching entry in insertion order. Under the invariant the matching entry is unique, so nothing is lost.
- `PathRef.RegisteredHostnameResolves`: holds only for hostnames without `:`. Registration accepts a hostname that contains `:` (lines 50-57), and `parse_path` cuts the reference at its first `:` (line 494), so such a node cannot be addressed by hostname. `PathRef.ColonHostnameIsCut` exhibits this.
- `Text.Lower`: only ASCII capitals are lowered. Python's `lower()` also lowers other cased characters (`Ä` to `ä`) and maps `İ` to two characters. `Lower` is used only by the `id` prefix test, where the difference cannot show: a lowered string starts with `id` only when the original starts with `i`/`I` then `d`/`D`, since `İ` lowers to `i` followed by a combining dot, never directly by `d`.
- `PathRef.ParsePath`: only ASCII digits count as digits. Python's `isdigit` also accepts other Unicode digits, some of which then make `int()` raise.
- `Transfer.CopyOrMove`: an exception outside `mv`'s `try` is returned as `Escaped(message)`, and the distinct messages that `run`'s handlers print for it are not modelled. Hostname lookups made while parsing are not recorded in the call trace.
- Command names outside the client's eleven verbs are not modelled. `route_command` is an XML-RPC endpoint any caller can reach: an unknown name makes the local `getattr` (line 168) raise uncaught, and on the remote path it comes back as `Error: Failed to connect to node N - …` (lines 175-177).
- The node table stores whatever arguments arrive; XML-RPC values of unexpected types are not modelled.

Three behaviours of the code that the model follows and a reader might not expect:

- A registration from a known endpoint whose entry is stale is first evicted by the embedded sweep. It then gets a fresh identity, which may differ from the old one.
- If the compensating removal in a cross-node `mv` raises, instead of returning an error string, the reported result is `Error: Failed to move file - …`, not the source-removal error.
- `route_command` recomputes locality from ip and port on every call; `local_node_key` only exempts an entry from the sweep.

## Findings

| source | as written | input that shows it | evidently intended | confidence | as-written member | corrected member |
|---|---|---|---|---|---|---|
| p2p_fs.py:599-611 | On the third backtick of a closing fence, the single-line scanner clears `in_multiline` but keeps the two backticks it has already copied. | `echo id1:/f.txt`, followed by a fence, `abc`, and a closing fence on the same line, writes `abc` followed by two backticks. | The closing fence is dropped, as the continuation-line path does at line 655, so the content is `abc`. | medium; not executed | `EchoScan.ClosingFenceKeepsBackticks` | `EchoScan.ClosingFenceStripped` |

=== FILE: decimal.dfy ===
/** Decimal integers as Python's `str(n)` writes them and `int(s)` reads them. */
module Decimal {

  predicate IsDigit(c: char) {
    '0' <= c <= '9'
  }

  /** `s.isdigit()`, restricted to ASCII digits: non-empty and all digits. */
  predicate IsDigits(s: string) {
    |s| > 0 && AllDigits(s)
  }

  predicate AllDigits(s: string) {
    forall i :: 0 <= i < |s| ==> IsDigit(s[i])
  }

  function DigitChar(d: nat): (c: char)
    requires d < 10
    ensures IsDigit(c) && c as int - '0' as int == d
  {
    ('0' as int + d) as char
  }

  /** `int(s)` for a string of ASCII digits; leading zeros are allowed. */
  function DigitsValue(s: string): (r: nat)
    requires AllDigits(s)
    ensures r == 0 <==> forall i :: 0 <= i < |s| ==> s[i] == '0'
  {
    if s == [] then 0
    else DigitsValue(s[..|s| - 1]) * 10 + (s[|s| - 1] as int - '0' as int)
  }

  /** A leading zero does not change the value: `int("0" + s) == int(s)`. */
  lemma {:induction false} LeadingZero(s: string)
    requires AllDigits(s)
    ensures AllDigits("0" + s) && DigitsValue("0" + s) == DigitsValue(s)
    decreases |s|
  {
    if s != [] {
      var t := "0" + s;
      assert t[..|t| - 1] == "0" + s[..|s| - 1];
      LeadingZero(s[..|s| - 1]);
    }
  }

  /** `str(n)` for a non-negative `n`. */
  function NatToString(n: nat): (s: string)
    ensures IsDigits(s)
    ensures ':' !in s && '-' !in s
  {
    if n < 10 then [DigitChar(n)]
    else NatToString(n / 10) + [DigitChar(n % 10)]
  }

  /** `str(n)` for any integer. */
  function IntToString(n: int): (s: string)
    ensures ':' !in s
    ensures |s| > 0 && (s[0] == '-' <==> n < 0)
    ensures n >= 0 ==> IsDigits(s)
  {
    if n < 0 then "-" + NatToString(-n) else NatToString(n)
  }

  /** Reading back what `str` wrote gives the number. */
  lemma {:induction false} DigitsRoundTrip(n: nat)
    ensures DigitsValue(NatToString(n)) == n
  {
    if n >= 10 {
      var s := NatToString(n);
      assert s[..|s| - 1] == NatToString(n / 10);
      DigitsRoundTrip(n / 10);
    }
  }

  /** Distinct integers are written differently. */
  lemma IntToStringInjective(a: int, b: int)
    requires IntToString(a) == IntToString(b)
    ensures a == b
  {
    var s := IntToString(a);
    assert s[0] == '-' <==> a < 0 by {
      assert a >= 0 ==> s[0] != '-' by {
        if a >= 0 { assert s[0] in NatToString(a); }
      }
    }
    assert s[0] == '-' <==> b < 0 by {
      assert b >= 0 ==> s[0] != '-' by {
        if b >= 0 { assert s[0] in NatToString(b); }
      }
    }
    if a < 0 {
      assert NatToString(-a) == s[1..] == NatToString(-b);
      DigitsRoundTrip(-a);
      DigitsRoundTrip(-b);
    } else {
      DigitsRoundTrip(a);
      DigitsRoundTrip(b);
    }
  }
}

=== FILE: echo_scan.dfy ===
/**
 * The single-line scanner of the client's `echo` command: a backslash takes
 * the next character literally, and a run of three backticks opens (or
 * closes) a multi-line block. The content it builds is what gets written.
 */
module EchoScan {

  /** The scanner's variables: the output so far, the current backtick run, and whether a block is open. */
  datatype ScanState = ScanState(buffer: string, backticks: nat, multiline: bool)

  const Initial: ScanState := ScanState([], 0, false)

  /** `buffer[:-2]` guarded by `len(buffer) >= 2`. */
  function DropLastTwo(b: string): string {
    if |b| >= 2 then b[..|b| - 2] else b
  }

  /**
   * One backtick. The third of a run opens a block and drops the two
   * backticks already copied; when a block is open it closes it instead.
   * `stripClosing` says whether closing also drops those two backticks.
   */
  function Backtick(st: ScanState, stripClosing: bool): (r: ScanState)
    ensures r.multiline != st.multiline <==> st.backticks == 2
    ensures |r.buffer| <= |st.buffer| + 1
  {
    var n := st.backticks + 1;
    if n == 3 then
      if !st.multiline then ScanState(DropLastTwo(st.buffer), 0, true)
      else ScanState(if stripClosing then DropLastTwo(st.buffer) else st.buffer, 0, false)
    else
      st.(buffer := if n < 3 then st.buffer + ['`'] else st.buffer, backticks := n)
  }

  /** The scanner run over the rest of the line from state `st`. */
  function ScanWith(rest: string, st: ScanState, stripClosing: bool): (r: ScanState)
    ensures |r.buffer| <= |st.buffer| + |rest|
    decreases |rest|
  {
    if rest == [] then st
    else if rest[0] == '\\' then
      if |rest| >= 2 then ScanWith(rest[2..], st.(buffer := st.buffer + [rest[1]], backticks := 0), stripClosing)
      else ScanWith(rest[1..], st.(buffer := st.buffer + ['\\']), stripClosing)
    else if rest[0] == '`' then ScanWith(rest[1..], Backtick(st, stripClosing), stripClosing)
    else ScanWith(rest[1..], st.(buffer := st.buffer + [rest[0]], backticks := 0), stripClosing)
  }

  /** The scanner as the source writes it: closing a block keeps the two backticks. */
  function Scan(line: string): (r: ScanState)
    ensures |r.buffer| <= |line|
  {
    ScanWith(line, Initial, false)
  }

  /** The scanner as evidently intended: closing a block drops them, as the continuation-line path does. */
  function ScanIntended(line: string): (r: ScanState)
    ensures |r.buffer| <= |line|
  {
    ScanWith(line, Initial, true)
  }

  /** The scanning loop of `echo`. */
  method ScanLine(line: string) returns (content: string, multiline: bool)
    ensures content == Scan(line).buffer && multiline == Scan(line).multiline
  {
    var buffer: string := [];
    var backticks: nat := 0;
    multiline := false;
    var i := 0;
    while i < |line|
      invariant 0 <= i <= |line|
      invariant ScanWith(line[i..], ScanState(buffer, backticks, multiline), false) == Scan(line)
      decreases |line| - i
    {
      ghost var rest := line[i..];
      if line[i] == '\\' {
        if i + 1 < |line| {
          assert rest[1] == line[i + 1] && rest[2..] == line[i + 2..];
          buffer := buffer + [line[i + 1]];
          i := i + 2;
          backticks := 0;
        } else {
          assert rest[1..] == line[i + 1..];
          buffer := buffer + ['\\'];
          i := i + 1;
        }
      } else if line[i] == '`' {
        assert rest[1..] == line[i + 1..];
        backticks := backticks + 1;
        if backticks == 3 {
          if !multiline {
            if |buffer| >= 2 {
              buffer := buffer[..|buffer| - 2];
            }
            multiline := true;
          } else {
            multiline := false;
          }
          backticks := 0;
          i := i + 1;
        } else {
          if backticks < 3 {
            buffer := buffer + ['`'];
          }
          i := i + 1;
        }
      } else {
        assert rest[1..] == line[i + 1..];
        buffer := buffer + [line[i]];
        backticks := 0;
        i := i + 1;
      }
    }
    assert line[i..] == [];
    content := buffer;
  }

  /** Writes each backslash and backtick with a backslash before it. */
  function Escape(s: string): string {
    if s == [] then []
    else (if s[0] == '\\' || s[0] == '`' then ['\\', s[0]] else [s[0]]) + Escape(s[1..])
  }

  /** Escaped text is copied literally and leaves the block state alone. */
  lemma {:induction false} EscapedIsLiteral(s: string, tail: string, st: ScanState, stripClosing: bool)
    ensures ScanWith(Escape(s) + tail, st, stripClosing)
         == ScanWith(tail, st.(buffer := st.buffer + s, backticks := if s == [] then st.backticks else 0), stripClosing)
  {
    if s != [] {
      var c := s[0];
      var w := Escape(s) + tail;
      var st' := st.(buffer := st.buffer + [c], backticks := 0);
      if c == '\\' || c == '`' {
        assert w[0] == '\\' && w[1] == c && w[2..] == Escape(s[1..]) + tail;
      } else {
        assert w[0] == c && w[1..] == Escape(s[1..]) + tail;
      }
      assert ScanWith(w, st, stripClosing) == ScanWith(Escape(s[1..]) + tail, st', stripClosing);
      EscapedIsLiteral(s[1..], tail, st', stripClosing);
      assert st.buffer + [c] + s[1..] == st.buffer + s;
    } else {
      assert Escape(s) + tail == tail && st.buffer + s == st.buffer;
    }
  }

  /** Scanning undoes escaping: any text, escaped, comes back unchanged with no block open. */
  lemma EscapeRoundTrip(s: string)
    ensures Scan(Escape(s)).buffer == s && !Scan(Escape(s)).multiline
  {
    EscapedIsLiteral(s, [], Initial, false);
    assert Escape(s) + [] == Escape(s);
  }

  /** An opening fence at the start of a line leaves an empty buffer and an open block. */
  lemma OpeningFence(x: string, stripClosing: bool)
    ensures ScanWith("```" + x, Initial, stripClosing) == ScanWith(x, ScanState([], 0, true), stripClosing)
  {
    var w, w1, w2 := "```" + x, "``" + x, "`" + x;
    assert w[0] == '`' && w[1..] == w1;
    assert w1[0] == '`' && w1[1..] == w2;
    assert w2[0] == '`' && w2[1..] == x;
    assert Backtick(Initial, stripClosing) == ScanState("`", 1, false);
    assert Backtick(ScanState("`", 1, false), stripClosing) == ScanState("``", 2, false);
    assert ScanWith(w, Initial, stripClosing) == ScanWith(w1, ScanState("`", 1, false), stripClosing);
    assert ScanWith(w1, ScanState("`", 1, false), stripClosing) == ScanWith(w2, ScanState("``", 2, false), stripClosing);
  }

  /** A closing fence ending the line closes the block, keeping or dropping its first two backticks. */
  lemma ClosingFence(s: string, stripClosing: bool)
    ensures ScanWith("```", ScanState(s, 0, true), stripClosing)
         == ScanState(if stripClosing then s else s + "``", 0, false)
  {
    assert "```"[0] == '`' && "```"[1..] == "``";
    assert "``"[0] == '`' && "``"[1..] == "`";
    assert "`"[0] == '`' && "`"[1..] == [];
    assert Backtick(ScanState(s, 0, true), stripClosing) == ScanState(s + "`", 1, true);
    assert Backtick(ScanState(s + "`", 1, true), stripClosing) == ScanState(s + "``", 2, true);
    assert (s + "``")[..|s + "``"| - 2] == s;
  }

  /** A block opened and closed on one line around escaped text. */
  lemma FencedSteps(s: string, stripClosing: bool)
    ensures ScanWith("```" + Escape(s) + "```", Initial, stripClosing)
         == ScanState(if stripClosing then s else s + "``", 0, false)
  {
    assert "```" + Escape(s) + "```" == "```" + (Escape(s) + "```");
    OpeningFence(Escape(s) + "```", stripClosing);
    EscapedIsLiteral(s, "```", ScanState([], 0, true), stripClosing);
    assert [] + s == s;
    ClosingFence(s, stripClosing);
  }

  /** As written: ```` ```text``` ```` yields the text followed by two stray backticks. */
  lemma ClosingFenceKeepsBackticks(s: string)
    ensures Scan("```" + Escape(s) + "```") == ScanState(s + "``", 0, false)
  {
    FencedSteps(s, false);
  }

  /** As intended: ```` ```text``` ```` yields exactly the text, with the block closed. */
  lemma ClosingFenceStripped(s: string)
    ensures ScanIntended("```" + Escape(s) + "```") == ScanState(s, 0, false)
  {
    FencedSteps(s, true);
  }
}

=== FILE: node_table.dfy ===
/**
 * The node table of a `P2PFileSystem` directory as a value: the entries keyed by
 * endpoint, the set of identities in use, the high-water counter and the key of
 * the local node. Every registry operation is a step function on this value;
 * the class in module Registry performs the same steps in place.
 */
module NodeTable {
  import opened Wrappers
  import opened Text
  import Decimal

  /** The loopback address a directory uses to register itself. */
  const LocalIp: string := "127.0.0.1"

  /** The liveness timeout, in seconds, of the sweep that registration runs. */
  const DefaultTimeout: int := 120

  /** The `(ip, port)` pair that keys an entry (the source's `"ip:port"` string). */
  datatype Endpoint = Endpoint(ip: string, port: int)

  /** One registered node; `lastActive` is a whole number of seconds. */
  datatype NodeInfo = NodeInfo(id: int, hostname: string, ip: string, port: int, lastActive: int)

  datatype Table = Table(
    nodes: map<Endpoint, NodeInfo>,
    usedIds: set<int>,
    nodeCounter: int,
    localNodeKey: Option<Endpoint>)

  /** The status dictionaries that `heartbeat` and `unregister_node` return. */
  datatype Status = StatusSuccess(note: Option<string>) | StatusError(message: string)

  datatype RegisterError = KeyMismatch | HostnameInUse(hostname: string) | ReservedPrefix

  /** `{'id': n}` or `{'error': message}`. */
  datatype RegisterResult = Registered(id: int) | Rejected(error: RegisterError)

  function ErrorMessage(e: RegisterError): string {
    match e
    case KeyMismatch => "Security key verification failed"
    case HostnameInUse(h) => "Hostname " + h + " is already in use"
    case ReservedPrefix => "Hostname cannot start with \"id\""
  }

  /** Each rejection has its own message, so the client's printout tells them apart. */
  lemma ErrorMessageInjective(a: RegisterError, b: RegisterError)
    requires ErrorMessage(a) == ErrorMessage(b)
    ensures a == b
  {
    var m := ErrorMessage(a);
    assert a.HostnameInUse? <==> m[|m| - 1] == 'e';
    assert b.HostnameInUse? <==> m[|m| - 1] == 'e';
    if a.HostnameInUse? && b.HostnameInUse? {
      assert a.hostname == m[9..|m| - 18] == b.hostname;
    }
  }

  /** The string `f"{ip}:{port}"` that the source uses as the dictionary key. */
  function KeyString(e: Endpoint): string {
    e.ip + ":" + Decimal.IntToString(e.port)
  }

  /** The key starts with the address and its ':', and no ':' follows: it splits back at its last ':'. */
  lemma KeyStringSplitsAtLastColon(e: Endpoint)
    ensures |KeyString(e)| > |e.ip| && KeyString(e)[..|e.ip|] == e.ip && KeyString(e)[|e.ip|] == ':'
    ensures ':' !in KeyString(e)[|e.ip| + 1..]
  {
    assert KeyString(e)[|e.ip| + 1..] == Decimal.IntToString(e.port);
  }

  /** Keying by the pair is the same as keying by the string: the string is injective. */
  lemma {:induction false} KeyStringInjective(a: Endpoint, b: Endpoint)
    requires KeyString(a) == KeyString(b)
    ensures a == b
  {
    var s := KeyString(a);
    KeyStringSplitsAtLastColon(a);
    KeyStringSplitsAtLastColon(b);
    var i := |a.ip|;
    var j := |b.ip|;
    forall p | i < p < |s| ensures s[p] != ':' {
      assert s[p] == s[i + 1..][p - i - 1];
    }
    forall p | j < p < |s| ensures s[p] != ':' {
      assert s[p] == s[j + 1..][p - j - 1];
    }
    assert i == j;
    assert a.ip == s[..i] == b.ip;
    assert Decimal.IntToString(a.port) == s[i + 1..] == Decimal.IntToString(b.port);
    Decimal.IntToStringInjective(a.port, b.port);
  }

  /** Distinct endpoints of a table have distinct key strings. */
  lemma KeyStringsDistinct(keys: set<Endpoint>)
    ensures forall a, b :: a in keys && b in keys && KeyString(a) == KeyString(b) ==> a == b
  {
    forall a, b | a in keys && b in keys && KeyString(a) == KeyString(b) ensures a == b {
      KeyStringInjective(a, b);
    }
  }

  // ---------------------------------------------------------------------
  // The table invariant

  function IdsOf(nodes: map<Endpoint, NodeInfo>): set<int> {
    set k | k in nodes :: nodes[k].id
  }

  ghost predicate IdsDistinct(nodes: map<Endpoint, NodeInfo>) {
    forall k1, k2 :: k1 in nodes && k2 in nodes && nodes[k1].id == nodes[k2].id ==> k1 == k2
  }

  ghost predicate HostnamesDistinct(nodes: map<Endpoint, NodeInfo>) {
    forall k1, k2 :: k1 in nodes && k2 in nodes && nodes[k1].hostname == nodes[k2].hostname ==> k1 == k2
  }

  /** An entry sits under its own endpoint, has a positive identity not above the counter, and a legal hostname. */
  ghost predicate EntryWellFormed(k: Endpoint, info: NodeInfo, counter: int) {
    && 1 <= info.id <= counter
    && info.ip == k.ip && info.port == k.port
    && !StartsWithIdIgnoringCase(info.hostname)
  }

  /** `used_ids` is exactly the set of identities held by entries, and identities and hostnames are unique. */
  ghost predicate Inv(t: Table) {
    && t.usedIds == IdsOf(t.nodes)
    && IdsDistinct(t.nodes)
    && HostnamesDistinct(t.nodes)
    && forall k :: k in t.nodes ==> EntryWellFormed(k, t.nodes[k], t.nodeCounter)
  }

  // ---------------------------------------------------------------------
  // Identity allocation

  /** Leaving out an identity that is in use shrinks the set of used identities from there on. */
  lemma UsedAboveShrinks(used: set<int>, n: int)
    requires n in used
    ensures (set j | j in used && j >= n + 1) < (set j | j in used && j >= n)
  {
    var later, here := set j | j in used && j >= n + 1, set j | j in used && j >= n;
    assert later <= here;
    assert n in here && n !in later;
  }

  /** The first identity from `n` on that is not in use. */
  function SmallestFreeFrom(used: set<int>, n: int): (r: int)
    requires n >= 1
    requires forall j :: 1 <= j < n ==> j in used
    ensures r >= n && r !in used
    ensures forall j :: 1 <= j < r ==> j in used
    decreases set j | j in used && j >= n
  {
    if n in used then
      UsedAboveShrinks(used, n);
      SmallestFreeFrom(used, n + 1)
    else n
  }

  /** The smallest positive integer not in `used`. */
  function SmallestFree(used: set<int>): (r: int)
    ensures r >= 1 && r !in used
    ensures forall j :: 1 <= j < r ==> j in used
  {
    SmallestFreeFrom(used, 1)
  }

  /** Being positive, free, and above only used identities singles out the smallest free identity. */
  lemma SmallestFreeUnique(used: set<int>, id: int)
    requires id >= 1 && id !in used
    requires forall j :: 1 <= j < id ==> j in used
    ensures id == SmallestFree(used)
  {
  }

  // ---------------------------------------------------------------------
  // The liveness sweep (`cleanup_inactive_nodes`)

  /** An entry the sweep evicts: not the local node, and silent for longer than `timeout`. */
  predicate Stale(t: Table, k: Endpoint, now: int, timeout: int): (r: bool)
    requires k in t.nodes
    ensures r ==> t.localNodeKey != Some(k)
  {
    t.localNodeKey != Some(k) && now - t.nodes[k].lastActive > timeout
  }

  function StaleKeys(t: Table, now: int, timeout: int): (r: set<Endpoint>)
    ensures r <= t.nodes.Keys
    ensures t.localNodeKey.Some? ==> t.localNodeKey.value !in r
  {
    set k | k in t.nodes && Stale(t, k, now, timeout)
  }

  /** The identities held by the entries under `keys`. */
  function IdsUnder(nodes: map<Endpoint, NodeInfo>, keys: set<Endpoint>): set<int> {
    set k | k in keys && k in nodes :: nodes[k].id
  }

  /** Evicting one more entry frees its identity as well. */
  lemma IdsUnderGrow(nodes: map<Endpoint, NodeInfo>, keys: set<Endpoint>, k: Endpoint)
    requires k in nodes
    ensures IdsUnder(nodes, keys + {k}) == IdsUnder(nodes, keys) + {nodes[k].id}
  {
    assert nodes[k].id in IdsUnder(nodes, keys + {k});
  }

  function SweepStep(t: Table, now: int, timeout: int): (r: Table)
    ensures r.nodes.Keys <= t.nodes.Keys && r.usedIds <= t.usedIds
    ensures forall k :: k in r.nodes ==> r.nodes[k] == t.nodes[k]
    ensures r.localNodeKey == t.localNodeKey && r.nodeCounter == t.nodeCounter
  {
    var gone := StaleKeys(t, now, timeout);
    t.(nodes := t.nodes - gone, usedIds := t.usedIds - IdsUnder(t.nodes, gone))
  }

  /** Removing one entry frees exactly its identity. */
  lemma RemoveFreesId(nodes: map<Endpoint, NodeInfo>, k: Endpoint)
    requires IdsDistinct(nodes) && k in nodes
    ensures IdsOf(nodes - {k}) == IdsOf(nodes) - {nodes[k].id}
    ensures IdsDistinct(nodes - {k})
  {
    var rest := nodes - {k};
    forall id | id in IdsOf(nodes) - {nodes[k].id} ensures id in IdsOf(rest) {
      var k' :| k' in nodes && nodes[k'].id == id;
      assert k' in rest && rest[k'].id == id;
    }
  }

  /**
   * The sweep keeps the invariant, evicts exactly the stale entries, never
   * evicts the local node, leaves every other entry as it was, and frees the
   * identities of the evicted entries and no others.
   */
  lemma SweepKeepsInv(t: Table, now: int, timeout: int)
    requires Inv(t)
    ensures Inv(SweepStep(t, now, timeout))
    ensures forall k :: k in SweepStep(t, now, timeout).nodes <==> k in t.nodes && k !in StaleKeys(t, now, timeout)
    ensures forall k :: k in SweepStep(t, now, timeout).nodes ==> SweepStep(t, now, timeout).nodes[k] == t.nodes[k]
    ensures t.localNodeKey.Some? && t.localNodeKey.value in t.nodes ==> t.localNodeKey.value in SweepStep(t, now, timeout).nodes
    ensures forall k :: k in StaleKeys(t, now, timeout) ==> t.nodes[k].id !in SweepStep(t, now, timeout).usedIds
    ensures SweepStep(t, now, timeout).usedIds <= t.usedIds
  {
    var s := SweepStep(t, now, timeout);
    forall id | id in IdsOf(s.nodes) ensures id in s.usedIds {
      var k :| k in s.nodes && s.nodes[k].id == id;
      forall k' | k' in t.nodes && t.nodes[k'].id == id ensures !Stale(t, k', now, timeout) {
        assert k' == k;
      }
    }
    forall id | id in s.usedIds ensures id in IdsOf(s.nodes) {
      var k :| k in t.nodes && t.nodes[k].id == id;
      assert !Stale(t, k, now, timeout);
      assert k in s.nodes;
    }
  }

  // ---------------------------------------------------------------------
  // heartbeat and unregister_node

  function HeartbeatStep(t: Table, e: Endpoint, now: int): (r: (Table, Status))
    ensures r.1.StatusSuccess? <==> e in t.nodes
    ensures r.0.nodes.Keys == t.nodes.Keys && r.0.usedIds == t.usedIds
  {
    if e in t.nodes then
      (t.(nodes := t.nodes[e := t.nodes[e].(lastActive := now)]), StatusSuccess(None))
    else
      (t, StatusError("Node not found"))
  }

  /**
   * A heartbeat for a known endpoint changes only that entry's `lastActive`;
   * for an unknown one it reports an error and changes nothing.
   */
  lemma HeartbeatTouchesOnlyLastActive(t: Table, e: Endpoint, now: int)
    requires Inv(t)
    ensures Inv(HeartbeatStep(t, e, now).0)
    ensures HeartbeatStep(t, e, now).1.StatusSuccess? <==> e in t.nodes
    ensures HeartbeatStep(t, e, now).0.nodes.Keys == t.nodes.Keys
    ensures HeartbeatStep(t, e, now).0.usedIds == t.usedIds
    ensures HeartbeatStep(t, e, now).0.localNodeKey == t.localNodeKey
    ensures forall k :: k in t.nodes && k != e ==> HeartbeatStep(t, e, now).0.nodes[k] == t.nodes[k]
    ensures e in t.nodes ==> HeartbeatStep(t, e, now).0.nodes[e] == t.nodes[e].(lastActive := now)
    ensures e !in t.nodes ==> HeartbeatStep(t, e, now).0 == t
  {
    var t' := HeartbeatStep(t, e, now).0;
    if e in t.nodes {
      forall id | id in IdsOf(t.nodes) ensures id in IdsOf(t'.nodes) {
        var k :| k in t.nodes && t.nodes[k].id == id;
        assert t'.nodes[k].id == id;
      }
    }
  }

  function UnregisterStep(t: Table, e: Endpoint): (r: (Table, Status))
    ensures r.1.StatusSuccess? <==> e in t.nodes
    ensures r.0.nodes.Keys == t.nodes.Keys - {e}
    ensures forall k :: k in r.0.nodes ==> r.0.nodes[k] == t.nodes[k]
  {
    if e in t.nodes then
      (t.(nodes := t.nodes - {e}, usedIds := t.usedIds - {t.nodes[e].id}),
       StatusSuccess(Some("Node " + KeyString(e) + " has been removed")))
    else
      (t, StatusError("Node " + KeyString(e) + " does not exist"))
  }

  /**
   * Unregistering a known endpoint removes its entry and frees its identity,
   * so the next allocation picks that identity or a smaller one; an unknown
   * endpoint is an error that changes nothing.
   */
  lemma UnregisterFreesId(t: Table, e: Endpoint)
    requires Inv(t)
    ensures Inv(UnregisterStep(t, e).0)
    ensures UnregisterStep(t, e).1.StatusSuccess? <==> e in t.nodes
    ensures e !in t.nodes ==> UnregisterStep(t, e).0 == t
    ensures e in t.nodes ==>
      && UnregisterStep(t, e).0.nodes == t.nodes - {e}
      && t.nodes[e].id !in IdsOf(UnregisterStep(t, e).0.nodes)
      && SmallestFree(UnregisterStep(t, e).0.usedIds) <= t.nodes[e].id
  {
    if e in t.nodes {
      RemoveFreesId(t.nodes, e);
      var id := t.nodes[e].id;
      assert id !in t.usedIds - {id};
    }
  }

  // ---------------------------------------------------------------------
  // register_node

  /** A shared secret is configured (Python truthiness: not None, not empty) and the presented key differs. */
  predicate KeyRejected(configured: Option<string>, presented: Option<string>): (r: bool)
    ensures configured.None? || configured == Some("") ==> !r
    ensures r ==> presented != configured
  {
    configured.Some? && configured.value != "" && presented != configured
  }

  predicate HostnameHeld(nodes: map<Endpoint, NodeInfo>, hostname: string) {
    exists k :: k in nodes && nodes[k].hostname == hostname
  }

  /**
   * Key check, then the sweep with the default timeout, then idempotent
   * re-registration, then the hostname-conflict check, then the reserved-prefix
   * check, then allocation of the smallest free identity.
   */
  function RegisterStep(t: Table, selfPort: int, configured: Option<string>,
                        ip: string, port: int, hostname: string, presented: Option<string>,
                        now: int): (r: (Table, RegisterResult))
    ensures KeyRejected(configured, presented) ==> r == (t, Rejected(KeyMismatch))
    ensures r.1.Registered? ==> Endpoint(ip, port) in r.0.nodes && r.0.nodes[Endpoint(ip, port)].id == r.1.id
    ensures r.1.Rejected? ==> r.0.nodes.Keys <= t.nodes.Keys
  {
    if KeyRejected(configured, presented) then (t, Rejected(KeyMismatch))
    else
      var s := SweepStep(t, now, DefaultTimeout);
      var k := Endpoint(ip, port);
      if k in s.nodes then
        (s.(nodes := s.nodes[k := s.nodes[k].(lastActive := now)]), Registered(s.nodes[k].id))
      else if HostnameHeld(s.nodes, hostname) then (s, Rejected(HostnameInUse(hostname)))
      else if StartsWithIdIgnoringCase(hostname) then (s, Rejected(ReservedPrefix))
      else (Admit(s, selfPort, ip, port, hostname, now), Registered(SmallestFree(s.usedIds)))
  }

  /** The table after a new endpoint is given the smallest free identity. */
  function Admit(s: Table, selfPort: int, ip: string, port: int, hostname: string, now: int): (r: Table)
    ensures Endpoint(ip, port) in r.nodes && r.nodes.Keys == s.nodes.Keys + {Endpoint(ip, port)}
    ensures r.nodes[Endpoint(ip, port)].id >= 1 && r.nodes[Endpoint(ip, port)].id !in s.usedIds
    ensures r.usedIds == s.usedIds + {r.nodes[Endpoint(ip, port)].id}
    ensures r.nodeCounter >= r.nodes[Endpoint(ip, port)].id
  {
    var k := Endpoint(ip, port);
    var id := SmallestFree(s.usedIds);
    s.(nodes := s.nodes[k := NodeInfo(id, hostname, ip, port, now)],
       usedIds := s.usedIds + {id},
       nodeCounter := if s.nodeCounter < id then id else s.nodeCounter,
       localNodeKey := if ip == LocalIp && port == selfPort then Some(k) else s.localNodeKey)
  }

  /** Admitting a new endpoint with an unheld, unreserved hostname keeps the invariant. */
  lemma AdmitKeepsInv(s: Table, selfPort: int, ip: string, port: int, hostname: string, now: int)
    requires Inv(s) && Endpoint(ip, port) !in s.nodes
    requires !HostnameHeld(s.nodes, hostname) && !StartsWithIdIgnoringCase(hostname)
    ensures Inv(Admit(s, selfPort, ip, port, hostname, now))
  {
    var t' := Admit(s, selfPort, ip, port, hostname, now);
    var k := Endpoint(ip, port);
    var id := SmallestFree(s.usedIds);
    assert t'.nodes[k].id == id;
    forall i | i in IdsOf(s.nodes) + {id} ensures i in IdsOf(t'.nodes) {
      if i != id {
        var k' :| k' in s.nodes && s.nodes[k'].id == i;
        assert t'.nodes[k'].id == i;
      }
    }
  }

  /** Registration keeps the invariant, and a successful one leaves the endpoint holding the returned identity. */
  lemma RegisterKeepsInv(t: Table, selfPort: int, configured: Option<string>,
                         ip: string, port: int, hostname: string, presented: Option<string>, now: int)
    requires Inv(t)
    ensures Inv(RegisterStep(t, selfPort, configured, ip, port, hostname, presented, now).0)
    ensures var (t', r) := RegisterStep(t, selfPort, configured, ip, port, hostname, presented, now);
      r.Registered? ==> Endpoint(ip, port) in t'.nodes && t'.nodes[Endpoint(ip, port)].id == r.id
  {
    if !KeyRejected(configured, presented) {
      var s := SweepStep(t, now, DefaultTimeout);
      SweepKeepsInv(t, now, DefaultTimeout);
      var k := Endpoint(ip, port);
      if k in s.nodes {
        HeartbeatTouchesOnlyLastActive(s, k, now);
      } else if !HostnameHeld(s.nodes, hostname) && !StartsWithIdIgnoringCase(hostname) {
        AdmitKeepsInv(s, selfPort, ip, port, hostname, now);
      }
    }
  }

  /**
   * Every rejection leaves no new entry and changes no entry, and a key
   * mismatch is decided before the sweep and leaves the whole table untouched.
   */
  lemma RegisterRejectionChangesNothing(t: Table, selfPort: int, configured: Option<string>,
                                        ip: string, port: int, hostname: string, presented: Option<string>, now: int)
    requires Inv(t)
    ensures var (t', r) := RegisterStep(t, selfPort, configured, ip, port, hostname, presented, now);
      && (KeyRejected(configured, presented) ==> t' == t && r == Rejected(KeyMismatch))
      && (r.Rejected? ==> t'.nodes.Keys <= t.nodes.Keys && forall k :: k in t'.nodes ==> t'.nodes[k] == t.nodes[k])
  {
  }

  /**
   * An endpoint with no entry after the sweep (never registered, or evicted
   * by it as stale) whose hostname is held by an entry that survives the sweep
   * is refused with the conflict, whatever the hostname looks like; a new
   * endpoint with a reserved hostname is refused; the reserved-prefix error
   * is only ever given for a reserved hostname.
   */
  lemma RegisterHostnameChecks(t: Table, selfPort: int, configured: Option<string>,
                               ip: string, port: int, hostname: string, presented: Option<string>, now: int)
    requires Inv(t)
    requires !KeyRejected(configured, presented) && Endpoint(ip, port) !in SweepStep(t, now, DefaultTimeout).nodes
    ensures var r := RegisterStep(t, selfPort, configured, ip, port, hostname, presented, now).1;
      && (r == Rejected(ReservedPrefix) ==> StartsWithIdIgnoringCase(hostname))
      && (StartsWithIdIgnoringCase(hostname) ==> r.Rejected?)
      && ((exists k :: k in t.nodes && t.nodes[k].hostname == hostname && !Stale(t, k, now, DefaultTimeout))
          ==> r == Rejected(HostnameInUse(hostname)))
  {
    var s := SweepStep(t, now, DefaultTimeout);
    if exists k :: k in t.nodes && t.nodes[k].hostname == hostname && !Stale(t, k, now, DefaultTimeout) {
      var k :| k in t.nodes && t.nodes[k].hostname == hostname && !Stale(t, k, now, DefaultTimeout);
      assert k in s.nodes && s.nodes[k].hostname == hostname;
    }
  }

  /**
   * Re-registering an endpoint whose entry survives the sweep returns its
   * identity and refreshes only its `lastActive`; the stored hostname is kept
   * even when a different one is passed, no entry is added, and every other
   * surviving entry is left as it was.
   */
  lemma ReRegisterRefreshes(t: Table, selfPort: int, configured: Option<string>,
                            ip: string, port: int, hostname: string, presented: Option<string>, now: int)
    requires Inv(t)
    requires !KeyRejected(configured, presented)
    requires Endpoint(ip, port) in t.nodes && !Stale(t, Endpoint(ip, port), now, DefaultTimeout)
    ensures var (t', r) := RegisterStep(t, selfPort, configured, ip, port, hostname, presented, now);
      && r == Registered(t.nodes[Endpoint(ip, port)].id)
      && t'.nodes.Keys == t.nodes.Keys - StaleKeys(t, now, DefaultTimeout)
      && t'.nodes[Endpoint(ip, port)] == t.nodes[Endpoint(ip, port)].(lastActive := now)
      && t'.nodes[Endpoint(ip, port)].hostname == t.nodes[Endpoint(ip, port)].hostname
      && (forall k :: k in t'.nodes && k != Endpoint(ip, port) ==> t'.nodes[k] == t.nodes[k])
      && t'.localNodeKey == t.localNodeKey
  {
    SweepKeepsInv(t, now, DefaultTimeout);
  }

  /** Two registrations from one endpoint, the second within the timeout, return the same identity. */
  lemma RegisterTwiceSameId(t: Table, selfPort: int, configured: Option<string>,
                            ip: string, port: int, hostname: string, presented: Option<string>,
                            now1: int, now2: int)
    requires Inv(t)
    requires now1 <= now2 <= now1 + DefaultTimeout
    requires RegisterStep(t, selfPort, configured, ip, port, hostname, presented, now1).1.Registered?
    ensures var (t1, r1) := RegisterStep(t, selfPort, configured, ip, port, hostname, presented, now1);
      RegisterStep(t1, selfPort, configured, ip, port, hostname, presented, now2).1 == r1
  {
    var (t1, r1) := RegisterStep(t, selfPort, configured, ip, port, hostname, presented, now1);
    RegisterKeepsInv(t, selfPort, configured, ip, port, hostname, presented, now1);
    var k := Endpoint(ip, port);
    assert t1.nodes[k].lastActive == now1;
    assert !Stale(t1, k, now2, DefaultTimeout);
    ReRegisterRefreshes(t1, selfPort, configured, ip, port, hostname, presented, now2);
  }

  /**
   * A fresh registration that passes every check takes the smallest positive
   * identity held by no surviving entry, adds exactly one entry, and marks
   * the entry local exactly when it is the loopback address on the directory's port.
   */
  lemma RegisterAllocatesSmallestFree(t: Table, selfPort: int, configured: Option<string>,
                                      ip: string, port: int, hostname: string, presented: Option<string>, now: int)
    requires Inv(t)
    requires !KeyRejected(configured, presented)
    requires Endpoint(ip, port) !in SweepStep(t, now, DefaultTimeout).nodes
    requires !HostnameHeld(SweepStep(t, now, DefaultTimeout).nodes, hostname)
    requires !StartsWithIdIgnoringCase(hostname)
    ensures var (t', r) := RegisterStep(t, selfPort, configured, ip, port, hostname, presented, now);
      var live := SweepStep(t, now, DefaultTimeout).nodes;
      && r.Registered? && r.id >= 1
      && (forall k :: k in live ==> live[k].id != r.id)
      && (forall j :: 1 <= j < r.id ==> j in IdsOf(live))
      && t'.nodes == live[Endpoint(ip, port) := NodeInfo(r.id, hostname, ip, port, now)]
      && (t'.localNodeKey == Some(Endpoint(ip, port)) <==> (ip == LocalIp && port == selfPort) || t.localNodeKey == Some(Endpoint(ip, port)))
  {
    SweepKeepsInv(t, now, DefaultTimeout);
    var s := SweepStep(t, now, DefaultTimeout);
  }
}

=== FILE: path_ref.dfy ===
/**
 * `P2PClient.parse_path`: reading a `<node-ref>:<path>` argument. A node
 * reference `id<digits>` (any case) is a numeric identity; anything else is a
 * hostname that the directory resolves.
 */
module PathRef {
  import opened Wrappers
  import opened Text
  import Decimal
  import opened NodeTable

  /** The directory's answer to `get_node_by_hostname`, as the client sees it. */
  datatype HostLookup = HostFound(id: int) | HostMissing | LookupRaised(message: string)

  /** An identity and a path, or the error line `parse_path` prints before returning `(None, None)`. */
  datatype ParseResult = Parsed(nodeId: int, path: string) | ParseFailed(message: string)

  const MissingNodeMessage: string :=
    "Error: Path must include a node identifier, in the format 'idN:path' or 'hostname:path'"

  /** `prefix.lower().startswith('id') and prefix[2:].isdigit()`. */
  predicate IsIdRef(prefix: string): (r: bool)
    ensures r ==> |prefix| >= 3 && ':' !in prefix
  {
    StartsWithIdIgnoringCase(prefix) && Decimal.IsDigits(prefix[2..])
  }

  function ParsePath(spec: string, lookup: string -> HostLookup): (r: ParseResult)
    ensures ':' !in spec ==> r == ParseFailed(MissingNodeMessage)
  {
    match SplitAtFirst(spec, ':')
    case None => ParseFailed(MissingNodeMessage)
    case Some(parts) =>
      var (prefix, path) := parts;
      if IsIdRef(prefix) then Parsed(Decimal.DigitsValue(prefix[2..]), path)
      else
        match lookup(prefix)
        case HostFound(id) => Parsed(id, path)
        case HostMissing => ParseFailed("Error: Could not find a node with hostname '" + prefix + "'")
        case LookupRaised(m) => ParseFailed("Error: An error occurred while parsing the path - " + m)
  }

  /**
   * A numeric reference is decided before any hostname lookup: whatever the
   * directory would answer, `idN:path` (in any case, leading zeros allowed)
   * names identity N and the path after the first ':'.
   */
  lemma IdRefSkipsLookup(prefix: string, path: string, lookup: string -> HostLookup)
    requires IsIdRef(prefix) && ':' !in prefix
    ensures ParsePath(prefix + ":" + path, lookup) == Parsed(Decimal.DigitsValue(prefix[2..]), path)
  {
    SplitAtFirstOfJoin(prefix, ':', path);
  }

  /**
   * Any other prefix is taken as a hostname (`id`, `idx`, `ID12a` included):
   * the reference resolves exactly when the directory finds the hostname, and
   * the two failures print their own messages.
   */
  lemma NonIdRefUsesLookup(prefix: string, path: string, lookup: string -> HostLookup, id: int)
    requires !IsIdRef(prefix) && ':' !in prefix
    ensures ParsePath(prefix + ":" + path, lookup) == Parsed(id, path) <==> lookup(prefix) == HostFound(id)
    ensures lookup(prefix).HostMissing? ==>
      ParsePath(prefix + ":" + path, lookup) == ParseFailed("Error: Could not find a node with hostname '" + prefix + "'")
    ensures lookup(prefix).LookupRaised? ==>
      ParsePath(prefix + ":" + path, lookup)
        == ParseFailed("Error: An error occurred while parsing the path - " + lookup(prefix).message)
  {
    SplitAtFirstOfJoin(prefix, ':', path);
  }

  /** The reference `id` + `str(N)` reads back as N. */
  lemma IdRefRoundTrip(n: nat, path: string, lookup: string -> HostLookup)
    ensures ParsePath("id" + Decimal.NatToString(n) + ":" + path, lookup) == Parsed(n, path)
  {
    var prefix := "id" + Decimal.NatToString(n);
    assert prefix[2..] == Decimal.NatToString(n);
    assert ':' !in prefix by {
      assert forall i :: 2 <= i < |prefix| ==> prefix[i] == Decimal.NatToString(n)[i - 2];
    }
    IdRefSkipsLookup(prefix, path, lookup);
    Decimal.DigitsRoundTrip(n);
  }

  /**
   * A hostname held in a consistent table never reads as a numeric reference,
   * so `hostname:path` reaches the lookup and, when the directory answers with
   * the entry's identity, resolves to it.
   */
  lemma RegisteredHostnameResolves(t: Table, k: Endpoint, path: string, lookup: string -> HostLookup)
    requires Inv(t) && k in t.nodes
    requires ':' !in t.nodes[k].hostname
    requires lookup(t.nodes[k].hostname) == HostFound(t.nodes[k].id)
    ensures ParsePath(t.nodes[k].hostname + ":" + path, lookup) == Parsed(t.nodes[k].id, path)
  {
    SplitAtFirstOfJoin(t.nodes[k].hostname, ':', path);
    assert EntryWellFormed(k, t.nodes[k], t.nodeCounter);
  }

  /**
   * Registration accepts a hostname holding ':', but `hostname:path` is cut at
   * the first ':', so the client asks the directory about the part before it:
   * a node registered as `a:b` cannot be addressed by its hostname.
   */
  lemma ColonHostnameIsCut(selfPort: int, ip: string, port: int, now: int, path: string,
                           lookup: string -> HostLookup, id: int)
    ensures RegisterStep(Table(map[], {}, 0, None), selfPort, None, ip, port, "a:b", None, now).1 == Registered(1)
    ensures ParsePath("a:b" + ":" + path, lookup) == Parsed(id, "b:" + path) <==> lookup("a") == HostFound(id)
    ensures ParsePath("a:b" + ":" + path, lookup).Parsed? ==> ParsePath("a:b" + ":" + path, lookup).path != path
  {
    assert !StartsWithIdIgnoringCase("a:b");
    assert "a:b" + ":" + path == "a" + ":" + ("b:" + path);
    assert !IsIdRef("a");
    NonIdRefUsesLookup("a", "b:" + path, lookup, id);
    if lookup("a").HostFound? {
      NonIdRefUsesLookup("a", "b:" + path, lookup, lookup("a").id);
    }
    assert |"b:" + path| != |path|;
  }
}

=== FILE: registry.dfy ===
/**
 * `P2PFileSystem`: the directory object that holds the node table and routes
 * file commands. Its methods update the table in place and are proved to
 * perform exactly the step functions of module NodeTable.
 */
module Registry {
  import opened Wrappers
  import opened Text
  import opened NodeTable
  import opened Rpc
  import Decimal

  /** Where `route_command` sent a command. */
  datatype Dispatch = NotDispatched | DispatchedLocal | DispatchedRemote(to: Endpoint)

  function UnknownNodeMessage(id: int): string {
    "Error: Node " + Decimal.IntToString(id) + " does not exist"
  }

  function ConnectFailureMessage(id: int, reason: string): string {
    "Error: Failed to connect to node " + Decimal.IntToString(id) + " - " + reason
  }

  /** What a remote dispatch returns: the reply, or a connection-failure string for an exception. */
  function RemoteReply(id: int, res: RpcResult): (r: Value)
    ensures res.Returned? ==> r == res.value
    ensures res.Raised? ==> && r.Str? && IsErrorReply(r)
                            && |r.s| > |res.message| && r.s[|r.s| - |res.message|..] == res.message
  {
    match res
    case Returned(v) => v
    case Raised(m) => Str(ConnectFailureMessage(id, m))
  }

  class P2PFileSystem {
    /** The port this directory listens on; with 127.0.0.1 it identifies the local node. */
    const port: int
    /** The shared registration secret, if any. */
    const securityKey: Option<string>

    var nodes: map<Endpoint, NodeInfo>
    var usedIds: set<int>
    var nodeCounter: int
    var localNodeKey: Option<Endpoint>

    function State(): Table
      reads this
    {
      Table(nodes, usedIds, nodeCounter, localNodeKey)
    }

    ghost predicate Valid()
      reads this
    {
      Inv(State())
    }

    constructor (port: int, key: Option<string>)
      ensures Valid()
      ensures this.port == port && securityKey == key
      ensures State() == Table(map[], {}, 0, None)
    {
      this.port := port;
      securityKey := key;
      nodes := map[];
      usedIds := {};
      nodeCounter := 0;
      localNodeKey := None;
    }

    /** `get_next_available_id`: the smallest positive identity not in use. */
    method NextAvailableId() returns (id: int)
      ensures id >= 1 && id !in usedIds
      ensures forall j :: 1 <= j < id ==> j in usedIds
    {
      var used := usedIds;
      id := 1;
      while id in used
        invariant id >= 1
        invariant forall j :: 1 <= j < id ==> j in used
        decreases set j | j in used && j >= id
      {
        UsedAboveShrinks(used, id);
        id := id + 1;
      }
    }

    /** `get_node_by_hostname`: an entry holding `hostname`, if there is one. */
    method GetNodeByHostname(hostname: string) returns (r: Option<NodeInfo>)
      ensures r.None? <==> !HostnameHeld(nodes, hostname)
      ensures r.Some? ==> r.value in nodes.Values && r.value.hostname == hostname
    {
      var pending := nodes.Keys;
      while pending != {}
        invariant pending <= nodes.Keys
        invariant forall k :: k in nodes && k !in pending ==> nodes[k].hostname != hostname
        decreases pending
      {
        var k :| k in pending;
        if nodes[k].hostname == hostname {
          return Some(nodes[k]);
        }
        pending := pending - {k};
      }
      return None;
    }

    /** `get_nodes`: the table as the wire sees it, keyed by the `"ip:port"` string. */
    function GetNodes(): (r: map<string, NodeInfo>)
      reads this
      ensures r.Keys == set k | k in nodes :: KeyString(k)
      ensures forall k :: k in nodes ==> r[KeyString(k)] == nodes[k]
    {
      KeyStringsDistinct(nodes.Keys);
      map k | k in nodes :: KeyString(k) := nodes[k]
    }

    /**
     * `cleanup_inactive_nodes`: evicts every stale non-local entry, frees its
     * identity, and returns the evicted endpoints, each once.
     */
    method CleanupInactiveNodes(now: int, timeout: int) returns (evicted: seq<Endpoint>)
      modifies this
      ensures old(Valid()) ==> Valid()
      ensures State() == SweepStep(old(State()), now, timeout)
      ensures forall k :: k in evicted <==> k in StaleKeys(old(State()), now, timeout)
      ensures forall i, j :: 0 <= i < j < |evicted| ==> evicted[i] != evicted[j]
    {
      ghost var t0 := State();
      ghost var gone: set<Endpoint> := {};
      var pending := nodes.Keys;
      evicted := [];
      while pending != {}
        invariant pending <= t0.nodes.Keys
        invariant localNodeKey == t0.localNodeKey && nodeCounter == t0.nodeCounter
        invariant gone == StaleKeys(t0, now, timeout) - pending
        invariant nodes == t0.nodes - gone
        invariant usedIds == t0.usedIds - IdsUnder(t0.nodes, gone)
        invariant forall k :: k in evicted <==> k in gone
        invariant forall i, j :: 0 <= i < j < |evicted| ==> evicted[i] != evicted[j]
        decreases pending
      {
        var k :| k in pending;
        assert k !in gone && nodes[k] == t0.nodes[k];
        pending := pending - {k};
        if localNodeKey != Some(k) && now - nodes[k].lastActive > timeout {
          assert k in StaleKeys(t0, now, timeout) && k !in evicted;
          evicted := evicted + [k];
          IdsUnderGrow(t0.nodes, gone, k);
          gone := gone + {k};
          usedIds := usedIds - {nodes[k].id};
          nodes := nodes - {k};
        } else {
          assert k !in StaleKeys(t0, now, timeout);
        }
      }
      assert gone == StaleKeys(t0, now, timeout);
      if Inv(t0) {
        SweepKeepsInv(t0, now, timeout);
      }
    }

    /** `register_node`, performed in place. */
    method Register(ip: string, p: int, hostname: string, presented: Option<string>, now: int)
      returns (r: RegisterResult)
      requires Valid()
      modifies this
      ensures Valid()
      ensures (State(), r) == RegisterStep(old(State()), port, securityKey, ip, p, hostname, presented, now)
    {
      ghost var t0 := State();
      RegisterKeepsInv(t0, port, securityKey, ip, p, hostname, presented, now);
      if securityKey.Some? && securityKey.value != "" && presented != securityKey {
        return Rejected(KeyMismatch);
      }
      var evicted := CleanupInactiveNodes(now, DefaultTimeout);
      var key := Endpoint(ip, p);
      if key in nodes {
        nodes := nodes[key := nodes[key].(lastActive := now)];
        return Registered(nodes[key].id);
      }
      var holder := GetNodeByHostname(hostname);
      if holder.Some? {
        return Rejected(HostnameInUse(hostname));
      }
      if StartsWithIdIgnoringCase(hostname) {
        return Rejected(ReservedPrefix);
      }
      var id := NextAvailableId();
      SmallestFreeUnique(usedIds, id);
      usedIds := usedIds + {id};
      nodeCounter := if nodeCounter < id then id else nodeCounter;
      nodes := nodes[key := NodeInfo(id, hostname, ip, p, now)];
      if ip == LocalIp && p == port {
        localNodeKey := Some(key);
      }
      return Registered(id);
    }

    /** `heartbeat`: refreshes the entry's `lastActive`, or reports that the node is unknown. */
    method Heartbeat(ip: string, p: int, now: int) returns (s: Status)
      requires Valid()
      modifies this
      ensures Valid()
      ensures (State(), s) == HeartbeatStep(old(State()), Endpoint(ip, p), now)
    {
      HeartbeatTouchesOnlyLastActive(State(), Endpoint(ip, p), now);
      var key := Endpoint(ip, p);
      if key in nodes {
        nodes := nodes[key := nodes[key].(lastActive := now)];
        return StatusSuccess(None);
      }
      return StatusError("Node not found");
    }

    /** `unregister_node`: removes the entry and frees its identity, or reports that it does not exist. */
    method Unregister(ip: string, p: int) returns (s: Status)
      requires Valid()
      modifies this
      ensures Valid()
      ensures (State(), s) == UnregisterStep(old(State()), Endpoint(ip, p))
    {
      var key := Endpoint(ip, p);
      UnregisterFreesId(State(), key);
      if key in nodes {
        usedIds := usedIds - {nodes[key].id};
        nodes := nodes - {key};
        return StatusSuccess(Some("Node " + KeyString(key) + " has been removed"));
      }
      return StatusError("Node " + KeyString(key) + " does not exist");
    }

    /**
     * `route_command`: finds the entry holding `nodeId`; an unknown identity is
     * an error and nothing is dispatched; the entry at 127.0.0.1 on this
     * directory's port runs the command on the local backend; any other is
     * called remotely, and an exception there becomes a connection-failure string.
     */
    method RouteCommand(nodeId: int, cmd: Command, args: seq<Value>,
                        local: (Command, seq<Value>) -> Value,
                        remote: (Endpoint, Command, seq<Value>) -> RpcResult)
      returns (r: Value, d: Dispatch)
      requires Valid()
      ensures d.NotDispatched? <==> forall k :: k in nodes ==> nodes[k].id != nodeId
      ensures d.NotDispatched? ==> r == Str(UnknownNodeMessage(nodeId))
      ensures d.DispatchedLocal? <==>
                exists k :: k in nodes && nodes[k].id == nodeId && nodes[k].ip == LocalIp && nodes[k].port == port
      ensures d.DispatchedLocal? ==> r == local(cmd, args)
      ensures d.DispatchedRemote? ==>
                && d.to in nodes && nodes[d.to].id == nodeId
                && !(nodes[d.to].ip == LocalIp && nodes[d.to].port == port)
                && r == RemoteReply(nodeId, remote(d.to, cmd, args))
    {
      var target: Option<Endpoint> := None;
      var pending := nodes.Keys;
      while pending != {} && target.None?
        invariant pending <= nodes.Keys
        invariant target.None? ==> forall k :: k in nodes && k !in pending ==> nodes[k].id != nodeId
        invariant target.Some? ==> target.value in nodes && nodes[target.value].id == nodeId
        decreases pending
      {
        var k :| k in pending;
        if nodes[k].id == nodeId {
          target := Some(k);
        }
        pending := pending - {k};
      }
      if target.None? {
        return Str(UnknownNodeMessage(nodeId)), NotDispatched;
      }
      var info := nodes[target.value];
      if info.ip == LocalIp && info.port == port {
        return local(cmd, args), DispatchedLocal;
      }
      var to := Endpoint(info.ip, info.port);
      return RemoteReply(nodeId, remote(to, cmd, args)), DispatchedRemote(to);
    }
  }
}

=== FILE: rpc.dfy ===
/**
 * The closed set of file commands a node serves, and the values that travel
 * over the RPC transport (strings and XML-RPC `Binary` payloads).
 */
module Rpc {
  import opened Text

  /** The file-backend operations, one variant per verb a node exposes. */
  datatype Command = Mkdir | Rm | Touch | Ls | Tree | Cat | Echo | Cp | Mv | BinaryRead | BinaryWrite

  /** The method name under which each command is called on a node. */
  function WireName(c: Command): string {
    match c
    case Mkdir => "mkdir"
    case Rm => "rm"
    case Touch => "touch"
    case Ls => "ls"
    case Tree => "tree"
    case Cat => "cat"
    case Echo => "echo"
    case Cp => "cp"
    case Mv => "mv"
    case BinaryRead => "binary_read"
    case BinaryWrite => "binary_write"
  }

  /** Every verb the client sends has its own wire name. */
  lemma WireNameInjective(a: Command, b: Command)
    requires WireName(a) == WireName(b)
    ensures a == b
  {
  }

  /** Any string that begins with `Error:` reads as a failure. */
  lemma ErrorPrefixIsErrorReply(tail: string)
    ensures IsErrorReply(Str("Error:" + tail))
  {
    assert ("Error:" + tail)[..6] == "Error:";
  }

  /** A value carried by the transport: text, or the bytes of an XML-RPC `Binary`. */
  datatype Value = Str(s: string) | Bin(data: seq<bv8>)

  /** What a remote call gives back: a value, or the message of the exception it raised. */
  datatype RpcResult = Returned(value: Value) | Raised(message: string)

  /** `isinstance(v, str) and v.startswith('Error:')`: how a string result signals failure. */
  predicate IsErrorReply(v: Value): (r: bool)
    ensures v.Bin? ==> !r
    ensures r ==> |v.s| >= 6 && v.s == "Error:" + v.s[6..]
  {
    v.Str? && HasPrefix(v.s, "Error:")
  }
}

=== FILE: text.dfy ===
/** String predicates and splitting shared by the registry, the router and the client. */
module Text {
  import opened Wrappers

  /** Python's `s.startswith(p)`. */
  predicate HasPrefix(s: string, p: string) {
    |p| <= |s| && s[..|p|] == p
  }

  /**
   * `s.lower().startswith('id')`. Only 'i'/'I' lower to a string starting
   * with 'i' followed by something that can be 'd', and only 'd'/'D' lower
   * to 'd', so comparing the first two characters case-insensitively is exact.
   */
  predicate StartsWithIdIgnoringCase(s: string): (r: bool)
    ensures r <==> HasPrefix(Lower(s), "id")
  {
    assert |s| >= 2 ==> Lower(s)[..2] == [LowerChar(s[0]), LowerChar(s[1])];
    |s| >= 2 && (s[0] == 'i' || s[0] == 'I') && (s[1] == 'd' || s[1] == 'D')
  }

  /** ASCII lowering: A-Z become a-z, every other character is kept (unlike Python, which lowers all cased characters). */
  function LowerChar(c: char): char {
    if 'A' <= c <= 'Z' then (c as int - 'A' as int + 'a' as int) as char else c
  }

  /**
   * ASCII lowering of a string: keeps the length and lowers A-Z. It agrees with
   * `s.lower()` wherever `startswith('id')` can hold, which is its only use.
   */
  function Lower(s: string): (r: string)
    ensures |r| == |s| && forall i :: 0 <= i < |s| ==> r[i] == LowerChar(s[i])
  {
    if s == [] then [] else [LowerChar(s[0])] + Lower(s[1..])
  }

  /** `s.split(sep, 1)`: the part before the first `sep` and the rest. */
  function SplitAtFirst(s: string, sep: char): (r: Option<(string, string)>)
    ensures r.None? <==> sep !in s
    ensures r.Some? ==> sep !in r.value.0 && s == r.value.0 + [sep] + r.value.1
  {
    if s == [] then None
    else if s[0] == sep then Some(([], s[1..]))
    else
      match SplitAtFirst(s[1..], sep)
      case None => None
      case Some(parts) => Some(([s[0]] + parts.0, parts.1))
  }

  /** Splitting undoes joining at a separator the first part does not hold. */
  lemma {:induction false} SplitAtFirstOfJoin(p: string, sep: char, q: string)
    requires sep !in p
    ensures SplitAtFirst(p + [sep] + q, sep) == Some((p, q))
  {
    var s := p + [sep] + q;
    if p == [] {
      assert s[0] == sep && s[1..] == q;
    } else {
      assert s[0] == p[0] != sep;
      assert s[1..] == p[1..] + [sep] + q;
      SplitAtFirstOfJoin(p[1..], sep, q);
      assert [p[0]] + p[1..] == p;
    }
  }
}

=== FILE: transfer.dfy ===
/**
 * The `cp`/`mv` branch of the client's command loop: resolve both references,
 * then either one same-node route call or the cross-node sequence
 * `binary_read` -> `binary_write` [-> `rm` source [-> `rm` destination]].
 * Every call goes to the directory's `route_command`; the method records the
 * calls it issues, in order.
 */
module Transfer {
  import opened Text
  import opened Rpc
  import opened PathRef

  datatype Verb = Copy | Move

  /** One `route_command(node, command, *args)` call made through the directory. */
  datatype Call = Call(node: int, cmd: Command, args: seq<Value>)

  /** What the branch ends with: a printed value, or an exception left to the command loop's handlers. */
  datatype Outcome = Shown(v: Value) | Escaped(message: string)

  function VerbCommand(verb: Verb): Command {
    match verb
    case Copy => Cp
    case Move => Mv
  }

  /** A step of the transfer failed: the call raised, or returned an `"Error:"` string. */
  predicate Failed(res: RpcResult) {
    res.Raised? || IsErrorReply(res.value)
  }

  /** The call returned an `"Error:"` string (as opposed to raising). */
  predicate ErrorReturned(res: RpcResult) {
    res.Returned? && IsErrorReply(res.value)
  }

  function MoveFailure(reason: string): string {
    "Error: Failed to move file - " + reason
  }

  function MovedMessage(srcSpec: string, dstSpec: string): string {
    "Moved '" + srcSpec + "' to '" + dstSpec + "'"
  }

  function Finish(res: RpcResult): Outcome {
    match res
    case Returned(v) => Shown(v)
    case Raised(m) => Escaped(m)
  }

  method CopyOrMove(verb: Verb, srcSpec: string, dstSpec: string,
                    lookup: string -> HostLookup, route: Call -> RpcResult)
    returns (out: Outcome, calls: seq<Call>)
    // An unreadable reference issues nothing.
    ensures ParsePath(srcSpec, lookup).ParseFailed? ==>
              calls == [] && out == Shown(Str(ParsePath(srcSpec, lookup).message))
    ensures ParsePath(srcSpec, lookup).Parsed? && ParsePath(dstSpec, lookup).ParseFailed? ==>
              calls == [] && out == Shown(Str(ParsePath(dstSpec, lookup).message))
    // Same node: one in-place cp/mv on that node.
    ensures var S, D := ParsePath(srcSpec, lookup), ParsePath(dstSpec, lookup);
      S.Parsed? && D.Parsed? && S.nodeId == D.nodeId ==>
        && calls == [Call(S.nodeId, VerbCommand(verb), [Str(S.path), Str(D.path)])]
        && out == Finish(route(calls[0]))
    // Cross node: read the source first; nothing is written when the read fails.
    ensures var S, D := ParsePath(srcSpec, lookup), ParsePath(dstSpec, lookup);
      S.Parsed? && D.Parsed? && S.nodeId != D.nodeId ==>
        && 1 <= |calls| <= 4
        && calls[0] == Call(S.nodeId, BinaryRead, [Str(S.path)])
        && (Failed(route(calls[0])) <==> |calls| == 1)
        && (|calls| >= 2 ==> calls[1] == Call(D.nodeId, BinaryWrite, [Str(D.path), route(calls[0]).value]))
        && (verb == Copy ==> |calls| <= 2)
        && (verb == Copy && !Failed(route(calls[0])) ==> out == Finish(route(calls[1])))
        && (verb == Copy && route(calls[0]).Raised? ==> out == Escaped(route(calls[0]).message))
        && (verb == Copy && route(calls[0]).Returned? && IsErrorReply(route(calls[0]).value) ==> out == Shown(route(calls[0]).value))
    // Cross-node move: no removal after a failed write; a failed source removal is
    // compensated by removing the destination and is the error reported.
    ensures var S, D := ParsePath(srcSpec, lookup), ParsePath(dstSpec, lookup);
      S.Parsed? && D.Parsed? && S.nodeId != D.nodeId && verb == Move ==>
        && (|calls| >= 2 ==> (Failed(route(calls[1])) <==> |calls| == 2))
        && (|calls| >= 3 ==> calls[2] == Call(S.nodeId, Rm, [Str(S.path)]))
        && (|calls| >= 3 ==> (ErrorReturned(route(calls[2])) <==> |calls| == 4))
        && (|calls| == 4 ==> calls[3] == Call(D.nodeId, Rm, [Str(D.path)]))
        && (|calls| == 4 && route(calls[2]).Returned? && route(calls[3]).Returned? ==>
              out == Shown(route(calls[2]).value))
        && (|calls| == 3 && route(calls[2]).Returned? ==> out == Shown(Str(MovedMessage(srcSpec, dstSpec))))
        && (|calls| < 3 && !route(calls[|calls| - 1]).Raised? ==> out == Shown(route(calls[|calls| - 1]).value))
        && (route(calls[|calls| - 1]).Raised? ==> out == Shown(Str(MoveFailure(route(calls[|calls| - 1]).message))))
  {
    var src := ParsePath(srcSpec, lookup);
    if src.ParseFailed? {
      return Shown(Str(src.message)), [];
    }
    var dst := ParsePath(dstSpec, lookup);
    if dst.ParseFailed? {
      return Shown(Str(dst.message)), [];
    }
    if src.nodeId == dst.nodeId {
      var same := Call(src.nodeId, VerbCommand(verb), [Str(src.path), Str(dst.path)]);
      return Finish(route(same)), [same];
    }
    var read := Call(src.nodeId, BinaryRead, [Str(src.path)]);
    calls := [read];
    var content := route(read);
    if verb == Copy {
      if content.Raised? {
        return Escaped(content.message), calls;
      }
      if IsErrorReply(content.value) {
        return Shown(content.value), calls;
      }
      var write := Call(dst.nodeId, BinaryWrite, [Str(dst.path), content.value]);
      calls := calls + [write];
      return Finish(route(write)), calls;
    }
    // Move: every call below sits inside the source's try block.
    if content.Raised? {
      return Shown(Str(MoveFailure(content.message))), calls;
    }
    if IsErrorReply(content.value) {
      return Shown(content.value), calls;
    }
    var write := Call(dst.nodeId, BinaryWrite, [Str(dst.path), content.value]);
    calls := calls + [write];
    var written := route(write);
    if written.Raised? {
      return Shown(Str(MoveFailure(written.message))), calls;
    }
    if IsErrorReply(written.value) {
      return Shown(written.value), calls;
    }
    var remove := Call(src.nodeId, Rm, [Str(src.path)]);
    calls := calls + [remove];
    var removed := route(remove);
    if removed.Raised? {
      return Shown(Str(MoveFailure(removed.message))), calls;
    }
    if IsErrorReply(removed.value) {
      var undo := Call(dst.nodeId, Rm, [Str(dst.path)]);
      calls := calls + [undo];
      var undone := route(undo);
      if undone.Raised? {
        return Shown(Str(MoveFailure(undone.message))), calls;
      }
      return Shown(removed.value), calls;
    }
    return Shown(Str(MovedMessage(srcSpec, dstSpec))), calls;
  }
}

=== FILE: wrappers.dfy ===
/** The optional value used wherever the source returns `None` or a value. */
module Wrappers {
  datatype Option<+T> = None | Some(value: T)
}
